=== FILE: README.md ===
# RCON client and server core, modelled in Dafny

This project models the core of a small Java implementation of the Source
RCON protocol. RCON is a length-prefixed request/reply protocol over TCP.
A client logs in with a password (packet type AUTH = 3). It then sends text
commands (EXECCOMMAND = 2) and reads back the server's text answer
(RESPONSE_VALUE = 0). Login answers have type AUTH_RESPONSE = 2.

The model has two sides:

- **Server** (`RconServer.RconAcceptor.run`). One connection is a pure
  function `Server.Serve(bytes, password, handler)`. It returns the replies
  written, as abstract `(requestId, type, body)` triples, the bodies handed
  to the command handler, and how the loop ended. The loop ends at the end
  of the stream, on a refused login, or on the uncaught negative array size.
  The frame reader, the `trim`, the type dispatch and the loop are modelled
  as the code is written:
  - the server keeps no "authenticated" flag;
  - the refusal echoes the request id;
  - each pass reads `length + 2` bytes and leaves the two terminator bytes
    unread;
  - `length - 10` is computed in 32-bit arithmetic.
- **Client** (`RconClient`). An immutable record `Client.State` holds the
  request id, the socket and a count of sockets created. `Connect`,
  `Command`, `Disconnect` and the private `send` are functions that return
  the next state, the request frames written and the value or the exception.
  The network and `Random.nextInt()` are parameters.

Supporting modules:

- `Bytes`: Java `int`, the big-endian `readInt` layout, and a single-byte
  charset.
- `Text`: `String.trim`.
- `Wire`: the frame layout. It serves as the reference the reader is
  checked against.
- `Loopback`: runs the client's `connect` against the modelled server.
- `Corrected`: the server loop with the three defects under "## Findings"
  repaired. The client's test for a reply id of -1 (RconClient.java:101)
  and the doc comment that makes `run` responsible for authentication
  (RconServer.java:50) show what the repairs follow.

## Model

| member | source | states |
|---|---|---|
| Bytes.DecodeInt32 | src/main/java/net/kronos/rkon/core/RconServer.java:57-59 | `readInt` gives a signed value whose sign is the top bit of the first byte, congruent to the four bytes read big-endian |
| Bytes.DecodeEncodeInt32 | src/main/java/net/kronos/rkon/core/RconServer.java:57-59 | every 32-bit value read back from its four big-endian bytes is itself, whatever follows in the stream |
| Bytes.EncodeDecodeInt32 | src/main/java/net/kronos/rkon/core/RconServer.java:57-59 | every four bytes are the layout of the value `readInt` makes of them, so no two byte groups read as the same int |
| Bytes.Wrap32 | src/main/java/net/kronos/rkon/core/RconServer.java:60 | `length - 10` agrees with the exact difference modulo 2^32, and equals it when that fits in an `int` |
| Bytes.Latin1Decode | src/main/java/net/kronos/rkon/core/RconServer.java:62 | `new String(bodyBytes)` keeps the length and maps each byte to the character with the same code |
| Bytes.Latin1Encode | src/main/java/net/kronos/rkon/core/RconClient.java:130 | `payload.getBytes()` keeps the length; representable characters become their code and the rest become '?' |
| Bytes.Latin1RoundTripBytes | src/main/java/net/kronos/rkon/core/RconClient.java:132 | decoding a reply payload as text loses no byte: encoding the text again gives the payload back |
| Bytes.Latin1EncodeInjective | src/main/java/net/kronos/rkon/core/RconClient.java:132 | two single-byte texts with the same bytes are equal, so the text `command` returns is the only one that encodes to the reply payload |
| Bytes.Latin1RoundTrip | src/main/java/net/kronos/rkon/core/RconClient.java:130 | a command text of single-byte characters is sent byte for byte and reads back as itself |
| Text.Trim | src/main/java/net/kronos/rkon/core/RconServer.java:62 | `trim` returns an infix of its input that neither starts nor ends with a character ≤ U+0020, and everything cut off on either side is such a character |
| Text.BlankIffAllSpace | src/main/java/net/kronos/rkon/core/RconClient.java:79 | `s.trim().isEmpty()` holds exactly when every character of `s` is ≤ U+0020, so whitespace-only hosts and payloads are the refused ones |
| Text.TrimIdempotent | src/main/java/net/kronos/rkon/core/RconServer.java:62 | a trimmed body trims to itself |
| Wire.Encode | src/main/java/net/kronos/rkon/core/RconServer.java:57-61 | the reference frame: its length field counts exactly the bytes after it, ten more than the body, and it ends with the two zero terminators |
| Server.ReadFrame | src/main/java/net/kronos/rkon/core/RconServer.java:57-61 | one pass reads three ints and `length - 10` body bytes (none when the length is 10), so it consumes `length + 2` bytes; a length in [-2^31+10, 10), and only such a length, gives the negative array size `length - 10`; a stream too short for the header or body, and only such a stream, is end of stream, so every other stream yields a frame |
| Server.ReadFrameBare | src/main/java/net/kronos/rkon/core/RconServer.java:57-61 | a frame without terminators is read back exactly and leaves the stream just after it |
| Server.ReadFrameLeavesTerminator | src/main/java/net/kronos/rkon/core/RconServer.java:57-61 | a complete frame is read back exactly but leaves its two terminator bytes at the front of the stream |
| Server.Handle | src/main/java/net/kronos/rkon/core/RconServer.java:64-76 | a login whose trimmed body is the password gets one "Authentication Successful" reply and the loop goes on; a wrong one gets one "Authentication Failed" reply with the request id echoed and the loop stops; a command gets one type-0 reply with the handler's answer whether or not anyone logged in; only a command hands anything to the handler; other types get nothing |
| Server.Serve | src/main/java/net/kronos/rkon/core/RconServer.java:51-80 | nothing is answered after a refused login, and the loop stops on a refused login exactly when its last reply is the refusal |
| Server.Respond | src/main/java/net/kronos/rkon/core/RconServer.java:56-76 | over frames already read, the loop never crashes: it ends either at the end of the stream or on a refused login |
| Server.RespondStop | src/main/java/net/kronos/rkon/core/RconServer.java:64-70 | the frame-level loop ends on a refused login exactly when one of the frames is a login whose trimmed body differs from the password |
| Server.ServeFrames | src/main/java/net/kronos/rkon/core/RconServer.java:56-79 | on back-to-back terminator-less frames followed by a truncated tail, the byte-level loop answers exactly as the frame-level reference, frame by frame and in order, and ends cleanly |
| Server.TerminatorDesynchronises | src/main/java/net/kronos/rkon/core/RconServer.java:57-61 | two standard frames back to back: after the first, the terminators and the next length field read as length 0, and the connection dies with a negative array size of -10 |
| Server.RespondThen | src/main/java/net/kronos/rkon/core/RconServer.java:56-76 | replies come out in frame order: the loop over `fs + gs` is the loop over `fs` followed, unless it stopped, by the loop over `gs` |
| Server.RefusalEndsConnection | src/main/java/net/kronos/rkon/core/RconServer.java:67-70 | after a refused login no later frame is processed: whatever follows changes nothing |
| Server.CommandsWithoutLogin | src/main/java/net/kronos/rkon/core/RconServer.java:64-75 | on any connection where no login is refused, whether or not a login succeeded, every command frame reaches the handler and the loop runs to the end of the stream |
| Server.RepliesEchoIds | src/main/java/net/kronos/rkon/core/RconServer.java:64-74 | every reply, the refusal included, carries the request id of a frame the peer sent |
| Client.Send | src/main/java/net/kronos/rkon/core/RconClient.java:135-139 | `send` writes at most one request, with the session's request id, type and payload, and returns exactly the reply the exchange read; the session does not change |
| Client.Connect | src/main/java/net/kronos/rkon/core/RconClient.java:78-104 | a null or blank host, then a port outside [1, 65535], is refused with nothing changed or sent; otherwise the request id becomes the random value and a socket never held before is installed for the given host, port and timeout, the socket connects exactly when the host is reachable, a failure to connect or to read the login reply is an `IOException`, exactly one login carrying the password is sent if it does, and `AuthenticationException` is thrown exactly when the reply's id is -1 |
| Client.Open | src/main/java/net/kronos/rkon/core/RconClient.java:48-51 | a client exists exactly when its first `connect` returned normally; its state is the state that `connect` left, an open, connected socket and the random request id, and otherwise the constructor throws exactly the exception `connect` threw |
| Client.Disconnect | src/main/java/net/kronos/rkon/core/RconClient.java:111-115 | `disconnect` closes the current socket and changes nothing else; sends nothing; without a socket it fails with the null dereference and changes nothing at all |
| Client.DisconnectIdempotent | src/main/java/net/kronos/rkon/core/RconClient.java:111-115 | disconnecting twice leaves the same state as disconnecting once |
| Client.Command | src/main/java/net/kronos/rkon/core/RconClient.java:125-133 | a null or blank payload is refused and nothing is sent; otherwise exactly one command request carrying the payload bytes and the session's id is sent whenever the socket is open and connected, the call returns exactly when that exchange reads a reply, and the returned text is single-byte text that encodes back to the reply payload byte for byte; the session never changes |
| Client.ConnectsNeverReuseSockets | src/main/java/net/kronos/rkon/core/RconClient.java:88-95 | after any run of `connect` calls, the client holds either its original socket or one created after it, never an earlier one |
| Loopback.LoginAnswerAsWritten | src/main/java/net/kronos/rkon/core/RconServer.java:64-68 | the server as written answers any login with the request's own id, password right or wrong |
| Loopback.LoginCheckAsWritten | src/main/java/net/kronos/rkon/core/RconClient.java:98-103 | against the modelled server, `connect` throws `AuthenticationException` exactly when the random request id was -1 |
| Loopback.WrongPasswordAccepted | src/main/java/net/kronos/rkon/core/RconServer.java:68 | with a wrong password and any request id but -1, `connect` returns normally |
| Loopback.LoginAnswerFixed | src/main/java/net/kronos/rkon/core/RconServer.java:64-70 | the corrected server answers a login with the request's id when the password matches and -1 when it does not |
| Loopback.LoginCheckFixed | src/main/java/net/kronos/rkon/core/RconClient.java:101-103 | against the corrected server, `connect` throws exactly when the password is refused or the random id was -1 |
| Corrected.ReadFrame | src/main/java/net/kronos/rkon/core/RconServer.java:57-61 | the corrected reader reads a body of `length - 10` bytes and consumes `length + 4` bytes, terminators included; a length below ten, and only that, is malformed; a stream shorter than the header or than the whole frame, and only that, is end of stream |
| Corrected.ReadFrameEncoded | src/main/java/net/kronos/rkon/core/RconServer.java:57-61 | a complete frame is read back exactly and the stream is left just after its terminators |
| Corrected.Handle | src/main/java/net/kronos/rkon/core/RconServer.java:64-76 | a good login gets "Authentication Successful" with its own id and authenticates; the connection closes exactly on a wrong login, answered with an id -1 "Authentication Failed" login reply and stop reason `AuthRejected`, or on a command before login, answered with one id -1 reply, stop reason `NotAuthenticated`, and nothing handed to the handler; an authenticated command gets the handler's answer with its own id; other frame types change nothing; the state becomes authenticated exactly on a good login or stays so on a non-login frame |
| Corrected.Respond | src/main/java/net/kronos/rkon/core/RconServer.java:56-76 | from the unauthenticated state, no command reaches the handler unless some frame logged in |
| Corrected.Serve | src/main/java/net/kronos/rkon/core/RconServer.java:51-80 | the corrected loop calls the handler no more often than it writes replies |
| Corrected.ServeAnswers | src/main/java/net/kronos/rkon/core/RconServer.java:72-75 | on any bytes, every command body handed to the handler has a type-0 reply among the replies whose body is the handler's answer to it |
| Corrected.ServeFrames | src/main/java/net/kronos/rkon/core/RconServer.java:56-79 | standard frames sent back to back are each read whole and answered in order, exactly as the frame-level reference |
| Corrected.CommandsNeedLogin | src/main/java/net/kronos/rkon/core/RconServer.java:73-74 | on a connection where no frame logs in, no command reaches the handler |
| Corrected.CommandBeforeLoginRefused | src/main/java/net/kronos/rkon/core/RconServer.java:64-74 | a command sent before any frame logged in closes the connection: nothing reaches the handler, whatever follows it, a good login included |
| Corrected.LoginThenCommand | src/main/java/net/kronos/rkon/core/RconServer.java:64-74 | a good login followed by a command is answered with "Authentication Successful" and then the handler's answer, each echoing its request id |

## Left out

- Socket handling is left out: creation, connect timeouts and close side effects. A socket is a record with `connected` and `closed` flags. Whether it connects is the `reachable` parameter of `Client.Net`.
- The server's accept loop and its thread per connection (RconServer.java:22-35) are left out. So are the client's `synchronized` blocks. They are concurrency with no sequential content. Each connection is modelled alone, and each client call runs whole.
- `RconPacket` is not part of this model. Its `send`, its `write` byte layout and its byte order are not modelled. Replies are abstract triples. A client exchange is the `exchange` parameter of `Client.Net`. `Wire.Encode` uses the big-endian layout the server's `readInt` expects.
- `IRconHandler.handle` is an uninterpreted `string -> string`. A handler that returns null or throws is not modelled.
- `java.util.Random` is left out. The id it would return is the `randomId` parameter of `Client.Connect`.
- Charsets are reduced to one single-byte charset, in which byte b is the character with code b. Java would need its full charset machinery here.
- Client.Command: the reply is decoded with that single-byte charset, not UTF-8. The two agree on ASCII replies only.
- Client.Connect: a negative timeout makes `Socket.connect` throw `IllegalArgumentException`. The model reports every failure to connect as an I/O error.
- Client.Send: `exchange` is a function of the request alone. Server state carried between exchanges on one connection is not captured.
- A null password is not modelled. On the server, `equals(null)` would refuse every login.
- Failures while writing a reply (`IOException` from the output stream) are not modelled. Every reply is assumed written.
- Server.ReadFrame: `new byte[length - 10]` throws the uncaught `OutOfMemoryError` for any body size the heap cannot hold, such as length 0x7fff_ffff or a wrapped size near 2^31. The heap is not modelled: the model reads such a size as end of stream unless the input is that long.
- Server.Serve: a silent peer that keeps the socket open blocks the real loop forever. In the model the input is finite, and running out of bytes is end of stream.
- `printStackTrace` logging is left out.

## Findings

| source | as written | input that shows it | evidently intended | confidence | as-written member | corrected member |
|---|---|---|---|---|---|---|
| src/main/java/net/kronos/rkon/core/RconServer.java:57-61 | each pass reads the header and `length - 10` body bytes, so the frame's two terminator bytes stay in the stream | a login frame with the right password, then any command frame with a body under 65526 bytes, both sent with their terminators: the second pass reads the length as 0 and the connection dies with a negative array size of -10, so the command is never answered | read and discard the two terminator bytes after the body | high, not executed | Server.TerminatorDesynchronises | Corrected.ServeFrames |
| src/main/java/net/kronos/rkon/core/RconServer.java:68 | the refusal of a wrong password echoes the request id | a client `connect` with a wrong password and request id 5: the reply carries 5, the test at RconClient.java:101 for -1 does not fire, and `connect` returns normally | answer a refused login with request id -1, the value the client tests | high, not executed | Loopback.WrongPasswordAccepted | Loopback.LoginCheckFixed |
| src/main/java/net/kronos/rkon/core/RconServer.java:73-74 | a command is handed to the handler whether or not the connection logged in | a new connection whose only frame is a command: the handler runs and its answer is sent | refuse commands until a login has succeeded on the connection | medium, not executed | Server.CommandsWithoutLogin | Corrected.CommandBeforeLoginRefused |

=== FILE: base.dfy ===
/** Wrappers used throughout the model in place of Java's null references
    and exceptions. */
module Base {

  /** A value that may be absent: Java's nullable reference. */
  datatype Option<+T> = None | Some(value: T)

  /** The outcome of an operation that either returns a value or throws. */
  datatype Result<+R, +E> = Success(value: R) | Failure(error: E)
}

=== FILE: bytes.dfy ===
/** Bytes, Java's 32-bit `int`, the big-endian integer layout read by
    `DataInputStream.readInt`, and the single-byte character set assumed for
    `String.getBytes()` and `new String(byte[])`. */
module Bytes {

  newtype byte = x: int | 0 <= x < 256

  const MinInt32: int := -0x8000_0000
  const MaxInt32: int := 0x7fff_ffff

  /** A Java `int`. */
  type int32 = x: int | MinInt32 <= x <= MaxInt32

  /** Java `int` arithmetic: reduce an exact result modulo 2^32 into the
      signed range, as `length - 10` does when `length` is near the bottom of
      the range. */
  function Wrap32(x: int): (r: int32)
    ensures (r - x) % 0x1_0000_0000 == 0
    ensures MinInt32 <= x <= MaxInt32 ==> r == x
  {
    var u := x % 0x1_0000_0000;
    if u <= MaxInt32 then u else u - 0x1_0000_0000
  }

  /** The unsigned value of the first four bytes of `s`, most significant
      first. */
  function Unsigned32(s: seq<byte>): (u: nat)
    requires |s| >= 4
    ensures u < 0x1_0000_0000
  {
    ((s[0] as int * 0x100 + s[1] as int) * 0x100 + s[2] as int) * 0x100 + s[3] as int
  }

  /** The signed value of four bytes, most significant first
      (`DataInputStream.readInt`). */
  function DecodeInt32(s: seq<byte>): (r: int32)
    requires |s| >= 4
    ensures s[0] < 0x80 <==> r >= 0
    ensures (r - Unsigned32(s)) % 0x1_0000_0000 == 0
  {
    var u := Unsigned32(s);
    if u <= MaxInt32 then u else u - 0x1_0000_0000
  }

  /** The four bytes of `x`, most significant first (two's complement). */
  function EncodeInt32(x: int32): (b: seq<byte>)
    ensures |b| == 4
  {
    var u0 := if x < 0 then x + 0x1_0000_0000 else x;
    var u1 := u0 / 0x100;
    var u2 := u1 / 0x100;
    [(u2 / 0x100) as byte, (u2 % 0x100) as byte, (u1 % 0x100) as byte, (u0 % 0x100) as byte]
  }

  /** One base-256 digit comes off a number and goes back on unchanged. */
  lemma Digit(q: int, d: int)
    requires 0 <= d < 0x100
    ensures (q * 0x100 + d) / 0x100 == q && (q * 0x100 + d) % 0x100 == d
  {
  }

  /** Reading back the layout of `EncodeInt32` gives the original value,
      whatever follows it in the stream. */
  lemma DecodeEncodeInt32(x: int32, tail: seq<byte>)
    ensures DecodeInt32(EncodeInt32(x) + tail) == x
  {
    var u0 := if x < 0 then x + 0x1_0000_0000 else x;
    var u1 := u0 / 0x100;
    var u2 := u1 / 0x100;
    assert u0 == u1 * 0x100 + u0 % 0x100;
    assert u1 == u2 * 0x100 + u1 % 0x100;
    assert u2 == (u2 / 0x100) * 0x100 + u2 % 0x100;
    assert Unsigned32(EncodeInt32(x) + tail) == u0;
  }

  /** Every four bytes are the layout of the value they decode to. */
  lemma EncodeDecodeInt32(s: seq<byte>)
    requires |s| >= 4
    ensures EncodeInt32(DecodeInt32(s)) == s[..4]
  {
    var q2 := s[0] as int * 0x100 + s[1] as int;
    var q1 := q2 * 0x100 + s[2] as int;
    var u := q1 * 0x100 + s[3] as int;
    assert u == Unsigned32(s);
    Digit(q1, s[3] as int);
    Digit(q2, s[2] as int);
    Digit(s[0] as int, s[1] as int);
  }

  /** A value laid out at position `i` of a stream is read back there,
      whether the reader looks at just those four bytes or at the whole
      remainder. */
  lemma DecodeAt(x: int32, s: seq<byte>, i: nat)
    requires i + 4 <= |s| && s[i..i + 4] == EncodeInt32(x)
    ensures DecodeInt32(s[i..]) == x && DecodeInt32(s[i..i + 4]) == x
  {
    DecodeEncodeInt32(x, s[i + 4..]);
    assert s[i..] == EncodeInt32(x) + s[i + 4..];
    DecodeEncodeInt32(x, []);
    assert s[i..i + 4] == EncodeInt32(x) + [];
  }

  /** A value below 2^16 is laid out with two leading zero bytes. */
  lemma SmallInt32Layout(x: int32)
    requires 0 <= x < 0x1_0000
    ensures EncodeInt32(x)[0] == 0 && EncodeInt32(x)[1] == 0
  {
  }

  /** `new String(bytes)` under a single-byte charset: byte `b` becomes the
      character with code `b`. */
  function Latin1Decode(bs: seq<byte>): (s: string)
    ensures |s| == |bs|
    ensures forall i :: 0 <= i < |bs| ==> s[i] as int == bs[i] as int
  {
    seq(|bs|, i requires 0 <= i < |bs| => bs[i] as int as char)
  }

  /** `String.getBytes()` under a single-byte charset: characters above
      0xFF are unmappable and become '?'. */
  function Latin1Encode(s: string): (bs: seq<byte>)
    ensures |bs| == |s|
    ensures forall i :: 0 <= i < |s| ==> bs[i] as int == (if s[i] as int < 0x100 then s[i] as int else '?' as int)
  {
    seq(|s|, i requires 0 <= i < |s| => if s[i] as int < 0x100 then s[i] as int as byte else '?' as int as byte)
  }

  /** The characters the single-byte charset can represent. */
  predicate IsLatin1(s: string) {
    forall i :: 0 <= i < |s| ==> s[i] as int < 0x100
  }

  /** Decoding what was encoded restores every representable string. */
  lemma Latin1RoundTrip(s: string)
    requires IsLatin1(s)
    ensures Latin1Decode(Latin1Encode(s)) == s
  {
  }

  /** Encoding what was decoded restores every byte sequence. */
  lemma Latin1RoundTripBytes(bs: seq<byte>)
    ensures Latin1Encode(Latin1Decode(bs)) == bs
  {
  }

  /** Two representable strings with the same bytes are the same string, so
      a decoded reply is the only text that encodes back to it. */
  lemma Latin1EncodeInjective(u: string, v: string)
    requires IsLatin1(u) && IsLatin1(v)
    requires Latin1Encode(u) == Latin1Encode(v)
    ensures u == v
  {
    Latin1RoundTrip(u);
    Latin1RoundTrip(v);
  }
}

=== FILE: client.dfy ===
/** The RCON client (`RconClient`): argument checks, a fresh request id and
    socket on every `connect`, the login exchange and its `-1` test, and
    `command`. The client is an immutable record; every operation returns
    the next record, the exchanges it performed, and its value or the
    exception it throws.

    Randomness and the network are parameters: `connect` is given the value
    `Random.nextInt()` would return, and a `Net` that says whether the
    socket connects and what reply an exchange (`RconPacket.send`) reads
    back, if any. */
module Client {
  import opened Base
  import opened Bytes
  import opened Text
  import opened Wire

  const HostMessage: string := "Host can't be null or empty"
  const PortMessage: string := "Port is out of range"
  const PayloadMessage: string := "Payload can't be null or empty"

  /** One `java.net.Socket`. `serial` tells sockets apart: the n-th socket a
      client creates has serial n. */
  datatype Socket = Socket(serial: nat, host: string, port: int, timeout: int, connected: bool, closed: bool)

  /** The client's fields: `requestId`, `socket`, and how many sockets it has
      created so far. A new client has a zero id and no socket. */
  datatype State = State(requestId: int32, socket: Option<Socket>, created: nat)

  const Initial: State := State(0, None, 0)

  /** The exceptions the client throws. `NoSocket` is the
      `NullPointerException` of using a client whose `connect` never got past
      its argument checks. */
  datatype Error = IllegalArgument(message: string) | IoError | AuthenticationError | NoSocket

  /** The world outside: whether `socket.connect` succeeds for a host, port
      and timeout, and the reply `RconPacket.send` reads back for a request
      (`None` for an `IOException`). */
  datatype Net = Net(reachable: (string, int, int) -> bool, exchange: Frame -> Option<Frame>)

  /** The next state, the requests written to the socket, and the value or
      exception. */
  datatype Call<T> = Call(state: State, sent: seq<Frame>, result: Result<T, Error>)

  /** Every socket the client holds was created by it, so a new one can be
      told apart from it. */
  predicate Valid(st: State) {
    st.socket.Some? ==> st.socket.value.serial < st.created
  }

  /** The host check of `connect`. */
  predicate HostOk(host: Option<string>) {
    host.Some? && !IsBlank(host.value)
  }

  /** The port check of `connect`. */
  predicate PortOk(port: int) {
    1 <= port <= 65535
  }

  /** `send`: one request written with the client's request id, one reply
      read back, under the client's lock. The state does not change. */
  function Send(st: State, kind: int32, payload: seq<byte>, net: Net): (r: Call<Frame>)
    ensures r.state == st
    ensures r.sent == [] || r.sent == [Frame(st.requestId, kind, payload)]
    ensures r.result.Success? <==> r.sent != [] && net.exchange(r.sent[0]).Some?
    ensures r.result.Success? ==> r.result.value == net.exchange(r.sent[0]).value
    ensures r.sent != [] <==> st.socket.Some? && st.socket.value.connected && !st.socket.value.closed
  {
    match st.socket
    case None => Call(st, [], Failure(NoSocket))
    case Some(sock) =>
      if !sock.connected || sock.closed then Call(st, [], Failure(IoError))
      else
        var request := Frame(st.requestId, kind, payload);
        match net.exchange(request)
        case None => Call(st, [request], Failure(IoError))
        case Some(reply) => Call(st, [request], Success(reply))
  }

  /** `connect(host, port, password, timeout)`. Bad arguments are refused
      before anything changes or is sent. Otherwise the request id becomes
      `randomId` and a socket never held before replaces the old one; if it
      connects, exactly one login request carrying the password is sent, and
      `connect` throws `AuthenticationException` exactly when the reply's
      request id is -1. */
  function Connect(st: State, host: Option<string>, port: int, password: seq<byte>, timeout: int, randomId: int32, net: Net): (r: Call<()>)
    ensures !HostOk(host) ==> r == Call(st, [], Failure(IllegalArgument(HostMessage)))
    ensures HostOk(host) && !PortOk(port) ==> r == Call(st, [], Failure(IllegalArgument(PortMessage)))
    ensures HostOk(host) && PortOk(port) ==>
              && r.state.requestId == randomId
              && r.state.created == st.created + 1
              && r.state.socket.Some?
              && r.state.socket.value.serial == st.created
              && !r.state.socket.value.closed
              && r.state.socket.value.connected == net.reachable(host.value, port, timeout)
              && r.state.socket.value.host == host.value
              && r.state.socket.value.port == port
              && r.state.socket.value.timeout == timeout
    ensures HostOk(host) && PortOk(port)
              && (!net.reachable(host.value, port, timeout) || net.exchange(Frame(randomId, AUTH, password)).None?) ==>
              r.result == Failure(IoError)
    ensures Valid(st) ==> Valid(r.state)
    ensures Valid(st) && HostOk(host) && PortOk(port) && st.socket.Some? ==>
              r.state.socket.value.serial > st.socket.value.serial
    ensures HostOk(host) && PortOk(port) ==>
              r.sent == (if r.state.socket.value.connected then [Frame(randomId, AUTH, password)] else [])
    ensures r.result == Failure(AuthenticationError) <==>
              && HostOk(host) && PortOk(port)
              && net.reachable(host.value, port, timeout)
              && net.exchange(Frame(randomId, AUTH, password)).Some?
              && net.exchange(Frame(randomId, AUTH, password)).value.requestId == -1
    ensures r.result.Success? <==>
              && HostOk(host) && PortOk(port)
              && net.reachable(host.value, port, timeout)
              && net.exchange(Frame(randomId, AUTH, password)).Some?
              && net.exchange(Frame(randomId, AUTH, password)).value.requestId != -1
  {
    if !HostOk(host) then Call(st, [], Failure(IllegalArgument(HostMessage)))
    else if !PortOk(port) then Call(st, [], Failure(IllegalArgument(PortMessage)))
    else
      var sock := Socket(st.created, host.value, port, timeout, net.reachable(host.value, port, timeout), false);
      var next := State(randomId, Some(sock), st.created + 1);
      if !sock.connected then Call(next, [], Failure(IoError))
      else
        var c := Send(next, AUTH, password, net);
        match c.result
        case Failure(e) => Call(next, c.sent, Failure(e))
        case Success(reply) =>
          if reply.requestId == -1 then Call(next, c.sent, Failure(AuthenticationError))
          else Call(next, c.sent, Success(()))
  }

  /** The constructor: a new client that connects at once. The client exists
      only if `connect` returned normally, and then it holds an open,
      connected socket. */
  function Open(host: Option<string>, port: int, password: seq<byte>, timeout: int, randomId: int32, net: Net): (r: Result<State, Error>)
    ensures r.Success? <==> Connect(Initial, host, port, password, timeout, randomId, net).result.Success?
    ensures r.Success? ==> r.value == Connect(Initial, host, port, password, timeout, randomId, net).state
    ensures r.Failure? ==> r.error == Connect(Initial, host, port, password, timeout, randomId, net).result.error
    ensures r.Success? ==> Valid(r.value) && r.value.requestId == randomId
    ensures r.Success? ==> r.value.socket.Some? && r.value.socket.value.connected && !r.value.socket.value.closed
  {
    var c := Connect(Initial, host, port, password, timeout, randomId, net);
    match c.result
    case Success(_) => Success(c.state)
    case Failure(e) => Failure(e)
  }

  /** `disconnect`: close the socket. */
  function Disconnect(st: State): (r: Call<()>)
    ensures r.sent == []
    ensures r.result.Success? <==> st.socket.Some?
    ensures st.socket.None? ==> r == Call(st, [], Failure(NoSocket))
    ensures st.socket.Some? ==> r.state.socket == Some(st.socket.value.(closed := true))
    ensures r.state.requestId == st.requestId && r.state.created == st.created
  {
    match st.socket
    case None => Call(st, [], Failure(NoSocket))
    case Some(sock) => Call(st.(socket := Some(sock.(closed := true))), [], Success(()))
  }

  /** `command(payload)`. A null or blank payload is refused and nothing is
      sent. Otherwise exactly one command request carrying the payload's
      bytes is sent, with the session's request id, whenever the socket is
      open and connected; the call returns exactly when the exchange reads
      a reply, and the reply's payload comes back as text, byte for byte.
      The session never changes. */
  function Command(st: State, payload: Option<string>, net: Net): (r: Call<string>)
    ensures r.state == st
    ensures payload.None? || IsBlank(payload.value) ==> r.sent == [] && r.result == Failure(IllegalArgument(PayloadMessage))
    ensures payload.Some? && !IsBlank(payload.value) ==>
              r.sent == [] || r.sent == [Frame(st.requestId, EXECCOMMAND, Latin1Encode(payload.value))]
    ensures payload.Some? && !IsBlank(payload.value) ==>
              (r.sent != [] <==> st.socket.Some? && st.socket.value.connected && !st.socket.value.closed)
    ensures r.result.Success? <==> r.sent != [] && net.exchange(r.sent[0]).Some?
    ensures r.result.Success? ==>
              && |r.sent| == 1
              && IsLatin1(r.result.value)
              && Latin1Encode(r.result.value) == net.exchange(r.sent[0]).value.payload
  {
    if payload.None? || IsBlank(payload.value) then Call(st, [], Failure(IllegalArgument(PayloadMessage)))
    else
      var c := Send(st, EXECCOMMAND, Latin1Encode(payload.value), net);
      match c.result
      case Failure(e) => Call(st, c.sent, Failure(e))
      case Success(reply) =>
        Latin1RoundTripBytes(reply.payload);
        Call(st, c.sent, Success(Latin1Decode(reply.payload)))
  }

  /** Closing twice is closing once. */
  lemma DisconnectIdempotent(st: State)
    ensures Disconnect(Disconnect(st).state) == Disconnect(st)
  {
  }

  /** After any run of connects, every socket the client has held has a
      different serial: each `connect` that passes its checks installs a
      socket no earlier call installed. */
  lemma {:induction false} ConnectsNeverReuseSockets(st: State, calls: seq<(Option<string>, int, seq<byte>, int, int32)>, net: Net)
    requires Valid(st)
    ensures Valid(Connects(st, calls, net))
    ensures Connects(st, calls, net).created >= st.created
    ensures || Connects(st, calls, net).socket == st.socket
            || (Connects(st, calls, net).socket.Some? && Connects(st, calls, net).socket.value.serial >= st.created)
    decreases |calls|
  {
    if calls != [] {
      var (h, p, pw, t, id) := calls[0];
      var next := Connect(st, h, p, pw, t, id, net).state;
      ConnectsNeverReuseSockets(next, calls[1..], net);
    }
  }

  /** The state after a sequence of `connect` calls. */
  function Connects(st: State, calls: seq<(Option<string>, int, seq<byte>, int, int32)>, net: Net): State
    decreases |calls|
  {
    if calls == [] then st
    else
      var (h, p, pw, t, id) := calls[0];
      Connects(Connect(st, h, p, pw, t, id, net).state, calls[1..], net)
  }
}

=== FILE: corrected.dfy ===
/** The connection loop with the three defects of module `Server` repaired,
    next to which the loop as written is compared. The client's test for a
    reply id of -1 (RconClient.java:101) and the doc comment that makes `run`
    responsible for authentication (RconServer.java:50) are what the
    repairs follow:
    - each frame is read together with its two terminator bytes;
    - a length field below ten is a protocol error that ends the connection;
    - the connection has an authenticated state, and a command before a
      successful login is refused and ends the connection;
    - a refused login is answered with request id -1, the value the client
      tests for. */
module Corrected {
  import opened Bytes
  import opened Wire
  import Server

  /** A refusal carries this request id instead of the request's. */
  const Rejected: int32 := -1

  /** How the corrected loop ends. */
  datatype Stop = EndOfStream | AuthRejected | NotAuthenticated | ProtocolError

  /** The connection's state between frames. */
  datatype Phase = Unauthenticated | Authenticated | Closed(why: Stop)

  datatype Transcript = Transcript(replies: seq<Server.Reply>, handled: seq<string>, stop: Stop)

  /** The result of reading one frame whole. */
  datatype Read = Got(frame: Frame, rest: seq<byte>) | Eof | Malformed

  /** One frame read whole, terminators included. A stream that ends
      inside a frame is `Eof`; a length field below ten is `Malformed`. */
  function ReadFrame(s: seq<byte>): (r: Read)
    ensures r.Got? ==> |s| >= 12 && DecodeInt32(s) >= 10 && |s| - |r.rest| == DecodeInt32(s) + 4
    ensures r.Got? ==> r.frame.requestId == DecodeInt32(s[4..]) && r.frame.kind == DecodeInt32(s[8..])
    ensures r.Got? ==> 12 + |r.frame.payload| <= |s| && r.frame.payload == s[12..12 + |r.frame.payload|]
    ensures r.Malformed? <==> |s| >= 12 && DecodeInt32(s) < 10
    ensures r.Eof? <==> |s| < 12 || (DecodeInt32(s) >= 10 && |s| < DecodeInt32(s) + 4)
    ensures r.Got? ==> |r.frame.payload| == DecodeInt32(s) - 10
  {
    if |s| < 12 then Eof
    else
      var length := DecodeInt32(s);
      if length < 10 then Malformed
      else if |s| < length + 4 then Eof
      else Got(Frame(DecodeInt32(s[4..8]), DecodeInt32(s[8..12]), s[12..length + 2]), s[length + 4..])
  }

  /** A complete frame is read back exactly, and the stream is left just
      after its terminators. */
  lemma ReadFrameEncoded(f: Frame, tail: seq<byte>)
    requires Fits(f)
    ensures ReadFrame(Encode(f) + tail) == Got(f, tail)
  {
    var s := Encode(f) + tail;
    Server.ReadFrameBare(f, Terminator + tail);
    assert s == EncodeBare(f) + (Terminator + tail);
    assert DecodeInt32(s) == 10 + |f.payload|;
    assert s[|f.payload| + 14..] == tail;
  }

  /** The login request that logs the connection in. */
  predicate LogsIn(f: Frame, password: string) {
    f.kind == AUTH && Server.Body(f) == password
  }

  /** What one frame causes in a given phase. */
  datatype Step = Step(replies: seq<Server.Reply>, handled: seq<string>, next: Phase)

  /** The dispatch: a good login moves to `Authenticated`, a bad one is
      refused with id -1 and closes; a command is run only when
      authenticated and otherwise refused with id -1 and closes. */
  function Handle(f: Frame, phase: Phase, password: string, handler: string -> string): (st: Step)
    requires !phase.Closed?
    ensures |st.replies| <= 1 && |st.handled| <= |st.replies|
    ensures st.handled != [] ==> phase == Authenticated && st.next == Authenticated
    ensures st.next.Closed? ==> |st.replies| == 1 && st.replies[0].requestId == Rejected
    ensures !st.next.Closed? ==> forall i :: 0 <= i < |st.replies| ==> st.replies[i].requestId == f.requestId
    ensures st.next == Authenticated <==> LogsIn(f, password) || (phase == Authenticated && f.kind != AUTH)
    ensures st.next.Closed? <==> (f.kind == AUTH && !LogsIn(f, password)) || (f.kind == EXECCOMMAND && phase == Unauthenticated)
    ensures f.kind == EXECCOMMAND && phase == Authenticated ==>
              st.replies == [Server.Reply(f.requestId, RESPONSE_VALUE, handler(Server.Body(f)))] && st.handled == [Server.Body(f)]
    ensures f.kind != AUTH && f.kind != EXECCOMMAND ==> st == Step([], [], phase)
    ensures LogsIn(f, password) ==> st == Step([Server.Reply(f.requestId, AUTH_RESPONSE, Server.AuthOk)], [], Authenticated)
    ensures f.kind == AUTH && !LogsIn(f, password) ==>
              st == Step([Server.Reply(Rejected, AUTH_RESPONSE, Server.AuthFailed)], [], Closed(AuthRejected))
    ensures f.kind == EXECCOMMAND && phase == Unauthenticated ==> st.next == Closed(NotAuthenticated) && st.handled == []
  {
    if f.kind == AUTH then
      if Server.Body(f) == password then Step([Server.Reply(f.requestId, AUTH_RESPONSE, Server.AuthOk)], [], Authenticated)
      else Step([Server.Reply(Rejected, AUTH_RESPONSE, Server.AuthFailed)], [], Closed(AuthRejected))
    else if f.kind == EXECCOMMAND then
      if phase == Authenticated then
        Step([Server.Reply(f.requestId, RESPONSE_VALUE, handler(Server.Body(f)))], [Server.Body(f)], Authenticated)
      else
        Step([Server.Reply(Rejected, RESPONSE_VALUE, [])], [], Closed(NotAuthenticated))
    else
      Step([], [], phase)
  }

  function Prepend(st: Step, t: Transcript): Transcript {
    Transcript(st.replies + t.replies, st.handled + t.handled, t.stop)
  }

  /** Some frame of the list logs the connection in. */
  predicate SomeLogin(fs: seq<Frame>, password: string) {
    exists i :: 0 <= i < |fs| && LogsIn(fs[i], password)
  }

  /** The corrected loop over frames already read. From the unauthenticated
      state, no command reaches the handler unless some frame logged the
      connection in. */
  function Respond(fs: seq<Frame>, phase: Phase, password: string, handler: string -> string): (t: Transcript)
    requires !phase.Closed?
    ensures phase == Unauthenticated && t.handled != [] ==> SomeLogin(fs, password)
    decreases |fs|
  {
    if fs == [] then Transcript([], [], EndOfStream)
    else
      var st := Handle(fs[0], phase, password, handler);
      if st.next.Closed? then Transcript(st.replies, st.handled, st.next.why)
      else
        var t := Respond(fs[1..], st.next, password, handler);
        assert SomeLogin(fs[1..], password) ==> SomeLogin(fs, password) by {
          if SomeLogin(fs[1..], password) {
            var i :| 0 <= i < |fs[1..]| && LogsIn(fs[1..][i], password);
            assert LogsIn(fs[i + 1], password);
          }
        }
        assert st.next == Authenticated ==> LogsIn(fs[0], password) || phase == Authenticated;
        Prepend(st, t)
  }

  /** The corrected loop over the bytes the peer sends. It calls the
      handler no more often than it writes replies; `ServeAnswers` shows
      that each handled command has its own answer among them. */
  function Serve(s: seq<byte>, phase: Phase, password: string, handler: string -> string): (t: Transcript)
    requires !phase.Closed?
    ensures |t.handled| <= |t.replies|
    decreases |s|
  {
    match ReadFrame(s)
    case Eof => Transcript([], [], EndOfStream)
    case Malformed => Transcript([], [], ProtocolError)
    case Got(f, rest) =>
      var st := Handle(f, phase, password, handler);
      if st.next.Closed? then Transcript(st.replies, st.handled, st.next.why)
      else Prepend(st, Serve(rest, st.next, password, handler))
  }

  /** One turn of the corrected loop: once a frame has been read, the loop
      answers it and, unless that closed the connection, goes on with the
      rest in the new state. */
  lemma ServeStep(s: seq<byte>, f: Frame, rest: seq<byte>, phase: Phase, password: string, handler: string -> string)
    requires !phase.Closed?
    requires ReadFrame(s) == Got(f, rest)
    ensures Serve(s, phase, password, handler)
         == (var st := Handle(f, phase, password, handler);
             if st.next.Closed? then Transcript(st.replies, st.handled, st.next.why)
             else Prepend(st, Serve(rest, st.next, password, handler)))
  {
  }

  /** Some reply among `replies` gives the handler's answer `answer`. */
  predicate AnswerIn(replies: seq<Server.Reply>, answer: string) {
    exists k :: 0 <= k < |replies| && replies[k].kind == RESPONSE_VALUE && replies[k].body == answer
  }

  /** Every command body handed to the handler has its answer among the
      replies. */
  predicate Answered(t: Transcript, handler: string -> string) {
    forall j :: 0 <= j < |t.handled| ==> AnswerIn(t.replies, handler(t.handled[j]))
  }

  /** One frame's step answers what it hands to the handler, and the replies
      after it keep the rest answered. */
  lemma PrependAnswered(st: Step, t: Transcript, handler: string -> string)
    requires forall j :: 0 <= j < |st.handled| ==> AnswerIn(st.replies, handler(st.handled[j]))
    requires Answered(t, handler)
    ensures Answered(Prepend(st, t), handler)
  {
    var u := Prepend(st, t);
    forall j | 0 <= j < |u.handled|
      ensures AnswerIn(u.replies, handler(u.handled[j]))
    {
      if j < |st.handled| {
        assert u.handled[j] == st.handled[j];
        assert AnswerIn(st.replies, handler(st.handled[j]));
        var k :| 0 <= k < |st.replies| && st.replies[k].kind == RESPONSE_VALUE && st.replies[k].body == handler(st.handled[j]);
        assert u.replies[k] == st.replies[k];
      } else {
        assert u.handled[j] == t.handled[j - |st.handled|];
        assert AnswerIn(t.replies, handler(t.handled[j - |st.handled|]));
        var k :| 0 <= k < |t.replies| && t.replies[k].kind == RESPONSE_VALUE && t.replies[k].body == handler(u.handled[j]);
        assert u.replies[|st.replies| + k] == t.replies[k];
      }
    }
  }

  /** A frame the handler sees is answered with the handler's result. */
  lemma HandleAnswers(f: Frame, phase: Phase, password: string, handler: string -> string)
    requires !phase.Closed?
    ensures var st := Handle(f, phase, password, handler);
            forall j :: 0 <= j < |st.handled| ==> AnswerIn(st.replies, handler(st.handled[j]))
  {
    var st := Handle(f, phase, password, handler);
    if st.handled != [] {
      assert st.handled == [Server.Body(f)];
      assert st.replies[0] == Server.Reply(f.requestId, RESPONSE_VALUE, handler(Server.Body(f)));
    }
  }

  /** On any bytes, every command that reaches the handler is answered with
      the handler's result. */
  lemma {:induction false} ServeAnswers(s: seq<byte>, phase: Phase, password: string, handler: string -> string)
    requires !phase.Closed?
    ensures Answered(Serve(s, phase, password, handler), handler)
    decreases |s|
  {
    match ReadFrame(s)
    case Eof =>
    case Malformed =>
    case Got(f, rest) =>
      var st := Handle(f, phase, password, handler);
      HandleAnswers(f, phase, password, handler);
      ServeStep(s, f, rest, phase, password, handler);
      if !st.next.Closed? {
        ServeAnswers(rest, st.next, password, handler);
        PrependAnswered(st, Serve(rest, st.next, password, handler), handler);
      }
  }

  /** Standard frames sent back to back, followed by too few bytes for
      another frame, are each read and answered in order. */
  lemma {:induction false} ServeFrames(fs: seq<Frame>, tail: seq<byte>, phase: Phase, password: string, handler: string -> string)
    requires !phase.Closed?
    requires forall i :: 0 <= i < |fs| ==> Fits(fs[i])
    requires ReadFrame(tail).Eof?
    ensures Serve(EncodeAll(fs) + tail, phase, password, handler) == Respond(fs, phase, password, handler)
    decreases |fs|
  {
    var s := EncodeAll(fs) + tail;
    if fs == [] {
      assert s == tail;
    } else {
      var rest := EncodeAll(fs[1..]) + tail;
      assert s == Encode(fs[0]) + rest;
      ReadFrameEncoded(fs[0], rest);
      assert forall i :: 0 <= i < |fs| - 1 ==> fs[1..][i] == fs[i + 1];
      var st := Handle(fs[0], phase, password, handler);
      if !st.next.Closed? {
        ServeFrames(fs[1..], tail, st.next, password, handler);
        assert Serve(s, phase, password, handler) == Prepend(st, Serve(rest, st.next, password, handler));
      } else {
        assert Serve(s, phase, password, handler) == Transcript(st.replies, st.handled, st.next.why);
      }
    }
  }

  /** Commands sent on a connection that has not logged in never reach the
      handler, whatever else the peer sends. */
  lemma CommandsNeedLogin(fs: seq<Frame>, password: string, handler: string -> string)
    requires forall i :: 0 <= i < |fs| ==> Fits(fs[i])
    requires forall i :: 0 <= i < |fs| ==> !LogsIn(fs[i], password)
    ensures Serve(EncodeAll(fs), Unauthenticated, password, handler).handled == []
  {
    assert EncodeAll(fs) + [] == EncodeAll(fs);
    ServeFrames(fs, [], Unauthenticated, password, handler);
    assert !SomeLogin(fs, password);
  }

  /** Refusal comes in order: a command sent before any frame logged the
      connection in never reaches the handler, and neither does anything
      sent after it, a login included. */
  lemma {:induction false} CommandBeforeLoginRefused(pre: seq<Frame>, command: Frame, post: seq<Frame>, password: string, handler: string -> string)
    requires forall i :: 0 <= i < |pre| ==> !LogsIn(pre[i], password)
    requires command.kind == EXECCOMMAND
    ensures Respond(pre + [command] + post, Unauthenticated, password, handler).handled == []
    decreases |pre|
  {
    var fs := pre + [command] + post;
    if pre == [] {
      assert fs[0] == command;
    } else {
      assert fs[0] == pre[0];
      assert fs[1..] == pre[1..] + [command] + post;
      var st := Handle(fs[0], Unauthenticated, password, handler);
      if !st.next.Closed? {
        assert forall i :: 0 <= i < |pre| - 1 ==> pre[1..][i] == pre[i + 1];
        CommandBeforeLoginRefused(pre[1..], command, post, password, handler);
      }
    }
  }

  /** A login followed by a command is answered with the login reply and
      then the handler's answer, both echoing the request id. */
  lemma LoginThenCommand(login: Frame, command: Frame, password: string, handler: string -> string)
    requires Fits(login) && Fits(command)
    requires LogsIn(login, password) && command.kind == EXECCOMMAND
    ensures Serve(Encode(login) + Encode(command), Unauthenticated, password, handler).replies
         == [Server.Reply(login.requestId, AUTH_RESPONSE, Server.AuthOk),
             Server.Reply(command.requestId, RESPONSE_VALUE, handler(Server.Body(command)))]
  {
    ReadFrameEncoded(login, Encode(command));
    LoginFirst(Encode(login) + Encode(command), login, Encode(command), password, handler);
    CommandLast(command, password, handler);
  }

  /** A successful login is answered and the rest is served logged in. */
  lemma LoginFirst(s: seq<byte>, login: Frame, rest: seq<byte>, password: string, handler: string -> string)
    requires ReadFrame(s) == Got(login, rest) && LogsIn(login, password)
    ensures Serve(s, Unauthenticated, password, handler).replies
         == [Server.Reply(login.requestId, AUTH_RESPONSE, Server.AuthOk)] + Serve(rest, Authenticated, password, handler).replies
  {
    ServeStep(s, login, rest, Unauthenticated, password, handler);
  }

  /** A last command on a logged-in connection is answered by the handler. */
  lemma CommandLast(command: Frame, password: string, handler: string -> string)
    requires Fits(command) && command.kind == EXECCOMMAND
    ensures Serve(Encode(command), Authenticated, password, handler).replies
         == [Server.Reply(command.requestId, RESPONSE_VALUE, handler(Server.Body(command)))]
  {
    ReadFrameEncoded(command, []);
    assert Encode(command) + [] == Encode(command);
    ServeStep(Encode(command), command, [], Authenticated, password, handler);
    assert Serve([], Authenticated, password, handler).replies == [];
  }
}

=== FILE: loopback.dfy ===
/** The client's `connect` run against the modelled server: the socket
    always connects, and the reply to the login request is the first reply
    the server's connection loop writes for it. Run against the server as
    written, the client's `-1` test fires only when the random request id
    itself was -1; run against the corrected server, it fires on every
    refused password. */
module Loopback {
  import opened Base
  import opened Bytes
  import opened Wire
  import Server
  import Corrected
  import Client

  /** The first reply written, as the frame the client reads back. */
  function FirstReply(replies: seq<Server.Reply>): (p: Option<Frame>)
    ensures p.Some? <==> replies != []
    ensures p.Some? ==> p.value.requestId == replies[0].requestId && p.value.kind == replies[0].kind
  {
    if replies == [] then None
    else Some(Frame(replies[0].requestId, replies[0].kind, Latin1Encode(replies[0].body)))
  }

  /** A network that always connects, to the server as written. */
  function AsWritten(password: string, handler: string -> string): Client.Net {
    Client.Net((host: string, port: int, timeout: int) => true,
               (request: Frame) => if Fits(request) then FirstReply(Server.Serve(Encode(request), password, handler).replies) else None)
  }

  /** A network that always connects, to the corrected server. */
  function Fixed(password: string, handler: string -> string): Client.Net {
    Client.Net((host: string, port: int, timeout: int) => true,
               (request: Frame) => if Fits(request) then FirstReply(Corrected.Serve(Encode(request), Corrected.Unauthenticated, password, handler).replies) else None)
  }

  /** The server as written answers a login with the request's own id,
      whether or not the password matched. */
  lemma LoginAnswerAsWritten(password: string, handler: string -> string, request: Frame)
    requires Fits(request) && request.kind == AUTH
    ensures AsWritten(password, handler).exchange(request).Some?
    ensures AsWritten(password, handler).exchange(request).value.requestId == request.requestId
  {
    Server.ReadFrameLeavesTerminator(request, []);
    assert Encode(request) + [] == Encode(request);
    var e := Server.Handle(request, password, handler);
    var t := Server.Serve(Encode(request), password, handler);
    assert t.replies[0] == e.replies[0];
  }

  /** The corrected server answers a login with the request's id when the
      password matches, and with -1 when it does not. */
  lemma LoginAnswerFixed(password: string, handler: string -> string, request: Frame)
    requires Fits(request) && request.kind == AUTH
    ensures Fixed(password, handler).exchange(request).Some?
    ensures Fixed(password, handler).exchange(request).value.requestId
         == if Corrected.LogsIn(request, password) then request.requestId else Corrected.Rejected
  {
    Corrected.ReadFrameEncoded(request, []);
    assert Encode(request) + [] == Encode(request);
    var st := Corrected.Handle(request, Corrected.Unauthenticated, password, handler);
    var t := Corrected.Serve(Encode(request), Corrected.Unauthenticated, password, handler);
    assert t.replies[0] == st.replies[0];
  }

  /** Against the server as written, `connect` throws
      `AuthenticationException` exactly when the random request id was -1,
      whatever the password. */
  lemma LoginCheckAsWritten(st: Client.State, host: Option<string>, port: int, secret: seq<byte>, timeout: int,
                            randomId: int32, password: string, handler: string -> string)
    requires Client.HostOk(host) && Client.PortOk(port) && |secret| <= MaxPayload
    ensures (Client.Connect(st, host, port, secret, timeout, randomId, AsWritten(password, handler)).result
               == Failure(Client.AuthenticationError))
            <==> randomId == -1
  {
    LoginAnswerAsWritten(password, handler, Frame(randomId, AUTH, secret));
  }

  /** A wrong password is accepted: with any request id but -1, `connect`
      returns normally although the server refused the login and closed
      the connection. */
  lemma WrongPasswordAccepted(st: Client.State, host: Option<string>, port: int, secret: seq<byte>, timeout: int,
                              randomId: int32, password: string, handler: string -> string)
    requires Client.HostOk(host) && Client.PortOk(port) && |secret| <= MaxPayload
    requires Server.Rejects(Frame(randomId, AUTH, secret), password) && randomId != -1
    ensures Client.Connect(st, host, port, secret, timeout, randomId, AsWritten(password, handler)).result.Success?
  {
    LoginAnswerAsWritten(password, handler, Frame(randomId, AUTH, secret));
  }

  /** Against the corrected server, `connect` throws
      `AuthenticationException` exactly when the password is refused, or
      when the random request id happened to be -1. */
  lemma LoginCheckFixed(st: Client.State, host: Option<string>, port: int, secret: seq<byte>, timeout: int,
                        randomId: int32, password: string, handler: string -> string)
    requires Client.HostOk(host) && Client.PortOk(port) && |secret| <= MaxPayload
    ensures (Client.Connect(st, host, port, secret, timeout, randomId, Fixed(password, handler)).result
               == Failure(Client.AuthenticationError))
            <==> !Corrected.LogsIn(Frame(randomId, AUTH, secret), password) || randomId == -1
  {
    LoginAnswerFixed(password, handler, Frame(randomId, AUTH, secret));
  }
}

=== FILE: server.dfy ===
/** The per-connection loop of the RCON server (`RconServer.RconAcceptor.run`),
    as written: it reads frames from the socket one after another, answers
    login requests by comparing the trimmed body with the password, passes
    command bodies to the command handler, and stops on a refused login or
    when the stream ends.

    The connection is a pure function of the bytes the peer sends, the
    server password and the command handler (`IRconHandler.handle`, an
    uninterpreted `string -> string`). Its result is the list of replies
    written back, the list of bodies given to the handler, and how the loop
    ended. */
module Server {
  import opened Bytes
  import opened Text
  import opened Wire

  const AuthOk: string := "Authentication Successful"
  const AuthFailed: string := "Authentication Failed"

  /** One reply written with `RconPacket.write`, as an abstract triple. */
  datatype Reply = Reply(requestId: int32, kind: int32, body: string)

  /** How the loop ended. `EndOfStream` is the `IOException` the loop
      catches (the stream ran out in the middle of a frame);
      `NegativeArraySize` is the unchecked exception of `new byte[length - 10]`
      that escapes `run`. */
  datatype Stop = EndOfStream | AuthRejected | NegativeArraySize(size: int32)

  /** Everything observable about one connection. */
  datatype Transcript = Transcript(replies: seq<Reply>, handled: seq<string>, stop: Stop)

  /** The result of reading one frame. */
  datatype Read = Got(frame: Frame, rest: seq<byte>) | Eof | BadSize(size: int32)

  /** `length - 10` in Java `int` arithmetic, for a stream that holds at
      least the length field. */
  function BodySize(s: seq<byte>): int32
    requires |s| >= 4
  {
    Wrap32(DecodeInt32(s) - 10)
  }

  /** One pass through the top of the loop: three `readInt`s, the body
      array, and `readFully`. The terminator bytes are not read. */
  function ReadFrame(s: seq<byte>): (r: Read)
    ensures r.Got? ==> |s| >= 12 && |r.rest| < |s|
    ensures r.Got? ==> r.frame.requestId == DecodeInt32(s[4..]) && r.frame.kind == DecodeInt32(s[8..])
    ensures r.Got? ==> s == s[..12] + r.frame.payload + r.rest
    ensures r.Got? && DecodeInt32(s) >= MinInt32 + 10 ==> |s| - |r.rest| == DecodeInt32(s) + 2
    ensures r.Got? && DecodeInt32(s) >= MinInt32 + 10 ==> |r.frame.payload| == DecodeInt32(s) - 10
    ensures |s| >= 12 && MinInt32 + 10 <= DecodeInt32(s) < 10 ==> r == BadSize(DecodeInt32(s) - 10)
    ensures r.Eof? <==> |s| < 12 || (BodySize(s) >= 0 && |s| < 12 + BodySize(s))
    ensures r.BadSize? <==> |s| >= 12 && BodySize(s) < 0
    ensures r.BadSize? <==> |s| >= 12 && MinInt32 + 10 <= DecodeInt32(s) < 10
  {
    if |s| < 12 then Eof
    else
      var size := BodySize(s);
      if size < 0 then BadSize(size)
      else if |s| < 12 + size then Eof
      else Got(Frame(DecodeInt32(s[4..8]), DecodeInt32(s[8..12]), s[12..12 + size]), s[12 + size..])
  }

  /** The body the server compares and dispatches: the bytes decoded and
      trimmed. */
  function Body(f: Frame): string {
    Trim(Latin1Decode(f.payload))
  }

  /** The login request that makes the server close the connection. */
  predicate Rejects(f: Frame, password: string) {
    f.kind == AUTH && Body(f) != password
  }

  /** What one frame causes: the replies written, the handler calls made,
      and whether the loop goes on. */
  datatype Effect = Effect(replies: seq<Reply>, handled: seq<string>, proceed: bool)

  /** The dispatch on the frame's type. A login reply echoes the request id
      whether the password matched or not; a command is handed to the
      handler whether or not any login succeeded on this connection; any
      other type is ignored. */
  function Handle(f: Frame, password: string, handler: string -> string): (e: Effect)
    ensures |e.replies| <= 1 && |e.handled| <= |e.replies|
    ensures forall i :: 0 <= i < |e.replies| ==> e.replies[i].requestId == f.requestId
    ensures !e.proceed <==> Rejects(f, password)
    ensures e.proceed ==> forall i :: 0 <= i < |e.replies| ==> !IsRefusal(e.replies[i])
    ensures !e.proceed ==> e.replies == [Reply(f.requestId, AUTH_RESPONSE, AuthFailed)]
    ensures f.kind == AUTH && Body(f) == password ==> e.replies == [Reply(f.requestId, AUTH_RESPONSE, AuthOk)] && e.handled == []
    ensures f.kind == EXECCOMMAND ==> e.replies == [Reply(f.requestId, RESPONSE_VALUE, handler(Body(f)))] && e.handled == [Body(f)]
    ensures e.replies == [] <==> f.kind != AUTH && f.kind != EXECCOMMAND
    ensures f.kind != EXECCOMMAND ==> e.handled == []
  {
    if f.kind == AUTH then
      if Body(f) == password then Effect([Reply(f.requestId, AUTH_RESPONSE, AuthOk)], [], true)
      else Effect([Reply(f.requestId, AUTH_RESPONSE, AuthFailed)], [], false)
    else if f.kind == EXECCOMMAND then
      Effect([Reply(f.requestId, RESPONSE_VALUE, handler(Body(f)))], [Body(f)], true)
    else
      Effect([], [], true)
  }

  /** The reply written just before the socket is closed. */
  predicate IsRefusal(r: Reply) {
    r.kind == AUTH_RESPONSE && r.body == AuthFailed
  }

  /** The replies of one frame put in front of the rest of the connection. */
  function Prepend(e: Effect, t: Transcript): Transcript {
    Transcript(e.replies + t.replies, e.handled + t.handled, t.stop)
  }

  /** A refusal is always the last reply, and it is there exactly when the
      loop stopped on a refused login. */
  predicate RefusalLast(t: Transcript) {
    && (forall i :: 0 <= i < |t.replies| - 1 ==> !IsRefusal(t.replies[i]))
    && (t.stop == AuthRejected <==> |t.replies| > 0 && IsRefusal(t.replies[|t.replies| - 1]))
  }

  /** A frame after which the loop goes on adds no refusal. */
  lemma PrependKeepsRefusalLast(e: Effect, t: Transcript)
    requires |e.replies| <= 1 && forall i :: 0 <= i < |e.replies| ==> !IsRefusal(e.replies[i])
    requires RefusalLast(t)
    ensures RefusalLast(Prepend(e, t))
  {
    var rs := e.replies + t.replies;
    forall i | 0 <= i < |rs| - 1
      ensures !IsRefusal(rs[i])
    {
      if i >= |e.replies| {
        assert rs[i] == t.replies[i - |e.replies|];
      }
    }
    if |rs| > 0 && |t.replies| == 0 {
      assert rs[|rs| - 1] == e.replies[0];
    }
  }

  /** The connection loop over the bytes the peer sends: nothing is answered
      after a refused login, and the loop stops on one exactly when it
      wrote one. */
  function Serve(s: seq<byte>, password: string, handler: string -> string): (t: Transcript)
    ensures RefusalLast(t)
    decreases |s|
  {
    match ReadFrame(s)
    case Eof => Transcript([], [], EndOfStream)
    case BadSize(n) => Transcript([], [], NegativeArraySize(n))
    case Got(f, rest) =>
      var e := Handle(f, password, handler);
      if e.proceed then
        var t := Serve(rest, password, handler);
        PrependKeepsRefusalLast(e, t);
        Prepend(e, t)
      else Transcript(e.replies, e.handled, AuthRejected)
  }

  /** The same loop over frames already read: the reference the byte-level
      loop is compared with. A list of frames never crashes the loop; it
      ends on a refused login exactly when one of the frames is one. */
  function Respond(fs: seq<Frame>, password: string, handler: string -> string): (t: Transcript)
    ensures t.stop == EndOfStream || t.stop == AuthRejected
    decreases |fs|
  {
    if fs == [] then Transcript([], [], EndOfStream)
    else
      var e := Handle(fs[0], password, handler);
      if e.proceed then Prepend(e, Respond(fs[1..], password, handler))
      else Transcript(e.replies, e.handled, AuthRejected)
  }

  /** The frame-level loop ends on a refused login exactly when one of the
      frames is one. */
  lemma {:induction false} RespondStop(fs: seq<Frame>, password: string, handler: string -> string)
    ensures Respond(fs, password, handler).stop == AuthRejected <==> exists i :: 0 <= i < |fs| && Rejects(fs[i], password)
    decreases |fs|
  {
    if fs != [] {
      RespondStop(fs[1..], password, handler);
      assert forall i :: 1 <= i < |fs| ==> fs[i] == fs[1..][i - 1];
    }
  }

  /** The frames a list holds, as the loop must read them. */
  predicate AllFit(fs: seq<Frame>) {
    forall i :: 0 <= i < |fs| ==> Fits(fs[i])
  }

  /** A frame without terminators is read back exactly, and the stream is
      left just after it. */
  lemma ReadFrameBare(f: Frame, tail: seq<byte>)
    requires Fits(f)
    ensures ReadFrame(EncodeBare(f) + tail) == Got(f, tail)
  {
    var s := EncodeBare(f) + tail;
    var n := |f.payload|;
    assert s[0..4] == EncodeInt32(10 + n);
    assert s[4..8] == EncodeInt32(f.requestId);
    assert s[8..12] == EncodeInt32(f.kind);
    DecodeAt(10 + n, s, 0);
    assert s[0..] == s;
    DecodeAt(f.requestId, s, 4);
    DecodeAt(f.kind, s, 8);
    assert BodySize(s) == n;
    assert s[12..12 + n] == f.payload;
    assert s[12 + n..] == tail;
  }

  /** A complete frame is read back exactly, but the stream is left at its
      two terminator bytes: each pass consumes `length + 2` bytes. */
  lemma ReadFrameLeavesTerminator(f: Frame, tail: seq<byte>)
    requires Fits(f)
    ensures ReadFrame(Encode(f) + tail) == Got(f, Terminator + tail)
  {
    assert Encode(f) + tail == EncodeBare(f) + (Terminator + tail);
    ReadFrameBare(f, Terminator + tail);
  }

  /** One turn of the loop: once a frame has been read, the loop answers
      it and, unless it was a refused login, goes on with the rest. */
  lemma ServeStep(s: seq<byte>, f: Frame, rest: seq<byte>, password: string, handler: string -> string)
    requires ReadFrame(s) == Got(f, rest)
    ensures Serve(s, password, handler)
         == if Handle(f, password, handler).proceed
            then Prepend(Handle(f, password, handler), Serve(rest, password, handler))
            else Transcript(Handle(f, password, handler).replies, Handle(f, password, handler).handled, AuthRejected)
  {
  }

  /** On a stream of terminator-less frames, followed by too few bytes for
      another frame, the byte-level loop answers exactly as the frame-level
      reference does: one frame at a time, in order. */
  lemma {:induction false} ServeFrames(fs: seq<Frame>, tail: seq<byte>, password: string, handler: string -> string)
    requires AllFit(fs)
    requires ReadFrame(tail).Eof?
    ensures Serve(EncodeAllBare(fs) + tail, password, handler) == Respond(fs, password, handler)
    decreases |fs|
  {
    var s := EncodeAllBare(fs) + tail;
    if fs == [] {
      assert s == tail;
    } else {
      var rest := EncodeAllBare(fs[1..]) + tail;
      assert s == EncodeBare(fs[0]) + rest;
      ReadFrameBare(fs[0], rest);
      assert AllFit(fs[1..]) by {
        assert forall i :: 0 <= i < |fs| - 1 ==> fs[1..][i] == fs[i + 1];
      }
      ServeFrames(fs[1..], tail, password, handler);
      var e := Handle(fs[0], password, handler);
      if e.proceed {
        assert Serve(s, password, handler) == Prepend(e, Serve(rest, password, handler));
      } else {
        assert Serve(s, password, handler) == Transcript(e.replies, e.handled, AuthRejected);
      }
    }
  }

  /** Two well-formed frames sent back to back: after the first, the loop
      reads the first one's terminators and the start of the second as a
      length field of zero, and the connection dies with a negative array
      size instead of answering the second frame. */
  lemma TerminatorDesynchronises(f: Frame, g: Frame, tail: seq<byte>, password: string, handler: string -> string)
    requires Fits(f) && |g.payload| < 0x1_0000 - 10
    requires !Rejects(f, password)
    ensures Serve(Encode(f) + Encode(g) + tail, password, handler)
         == Transcript(Handle(f, password, handler).replies, Handle(f, password, handler).handled, NegativeArraySize(-10))
  {
    var s := Encode(f) + Encode(g) + tail;
    var rest := Terminator + (Encode(g) + tail);
    assert s == Encode(f) + (Encode(g) + tail);
    ReadFrameLeavesTerminator(f, Encode(g) + tail);
    TerminatorReadAsLength(g, tail);
    ServeStep(s, f, rest, password, handler);
    assert Serve(rest, password, handler) == Transcript([], [], NegativeArraySize(-10));
  }

  /** The two terminators followed by a frame with a short body look like a
      frame whose length field is zero. */
  lemma TerminatorReadAsLength(g: Frame, tail: seq<byte>)
    requires |g.payload| < 0x1_0000 - 10
    ensures ReadFrame(Terminator + (Encode(g) + tail)) == BadSize(-10)
  {
    var rest := Terminator + (Encode(g) + tail);
    SmallInt32Layout(10 + |g.payload|);
    assert Encode(g)[..4] == EncodeInt32(10 + |g.payload|);
    assert rest[0] == 0 && rest[1] == 0 && rest[2] == 0 && rest[3] == 0;
    assert Unsigned32(rest) == 0;
    assert DecodeInt32(rest) == 0;
  }

  /** The frame-level loop over two lists is the loop over the first,
      followed, if it did not stop on a refused login, by the loop over the
      second. */
  function Then(t: Transcript, u: Transcript): Transcript {
    if t.stop == AuthRejected then t
    else Transcript(t.replies + u.replies, t.handled + u.handled, u.stop)
  }

  /** Running on after one frame's effect is the same whichever way it is
      grouped. */
  lemma ThenPrepend(e: Effect, t: Transcript, u: Transcript)
    ensures Then(Prepend(e, t), u) == Prepend(e, Then(t, u))
  {
    if t.stop != AuthRejected {
      assert e.replies + (t.replies + u.replies) == (e.replies + t.replies) + u.replies;
      assert e.handled + (t.handled + u.handled) == (e.handled + t.handled) + u.handled;
    }
  }

  /** Frames are answered in the order they arrive, and what the loop does
      with later frames depends only on whether it is still running. */
  lemma {:induction false} RespondThen(fs: seq<Frame>, gs: seq<Frame>, password: string, handler: string -> string)
    ensures Respond(fs + gs, password, handler) == Then(Respond(fs, password, handler), Respond(gs, password, handler))
    decreases |fs|
  {
    if fs == [] {
      assert fs + gs == gs;
    } else {
      var fg := fs + gs;
      assert fg[0] == fs[0];
      assert fg[1..] == fs[1..] + gs;
      RespondThen(fs[1..], gs, password, handler);
      var e := Handle(fs[0], password, handler);
      var t := Respond(fs[1..], password, handler);
      var u := Respond(gs, password, handler);
      var w := Respond(fs[1..] + gs, password, handler);
      assert w == Then(t, u);
      if e.proceed {
        assert Respond(fg, password, handler) == Prepend(e, w);
        assert Respond(fs, password, handler) == Prepend(e, t);
        ThenPrepend(e, t, u);
      } else {
        assert Respond(fg, password, handler) == Respond(fs, password, handler);
      }
    }
  }

  /** No frame after a refused login is processed: whatever the peer sends
      next changes nothing. */
  lemma RefusalEndsConnection(fs: seq<Frame>, f: Frame, gs: seq<Frame>, password: string, handler: string -> string)
    requires Rejects(f, password)
    ensures Respond(fs + [f] + gs, password, handler) == Respond(fs + [f], password, handler)
  {
    RespondThen(fs + [f], gs, password, handler);
    assert Respond(fs + [f], password, handler).stop == AuthRejected by {
      assert (fs + [f])[|fs|] == f;
      RespondStop(fs + [f], password, handler);
    }
  }

  /** The command bodies in a list of frames. */
  function Commands(fs: seq<Frame>): seq<string> {
    if fs == [] then []
    else if fs[0].kind == EXECCOMMAND then [Body(fs[0])] + Commands(fs[1..])
    else Commands(fs[1..])
  }

  /** Logins make no difference to commands: on a connection where no login
      is refused, whether or not any login succeeded, every command frame
      reaches the handler and the connection runs to the end of the stream.
      The loop keeps no record of authentication. */
  lemma {:induction false} CommandsWithoutLogin(fs: seq<Frame>, password: string, handler: string -> string)
    requires forall i :: 0 <= i < |fs| ==> !Rejects(fs[i], password)
    ensures Respond(fs, password, handler).handled == Commands(fs)
    ensures Respond(fs, password, handler).stop == EndOfStream
    decreases |fs|
  {
    if fs != [] {
      assert forall i :: 0 <= i < |fs| - 1 ==> fs[1..][i] == fs[i + 1];
      CommandsWithoutLogin(fs[1..], password, handler);
      var e := Handle(fs[0], password, handler);
      assert e.proceed && e.handled == if fs[0].kind == EXECCOMMAND then [Body(fs[0])] else [];
      assert Respond(fs, password, handler) == Prepend(e, Respond(fs[1..], password, handler));
    }
  }

  /** Some frame in the list carries this request id. */
  predicate SentId(fs: seq<Frame>, id: int32) {
    exists i :: 0 <= i < |fs| && fs[i].requestId == id
  }

  /** Every reply, the refusal included, carries the request id of one of
      the frames the peer sent; the server never answers with -1 unless the
      peer used it. */
  lemma {:induction false} RepliesEchoIds(fs: seq<Frame>, password: string, handler: string -> string)
    ensures forall j :: 0 <= j < |Respond(fs, password, handler).replies| ==>
              SentId(fs, Respond(fs, password, handler).replies[j].requestId)
    decreases |fs|
  {
    if fs != [] {
      RepliesEchoIds(fs[1..], password, handler);
      var t := Respond(fs, password, handler);
      var e := Handle(fs[0], password, handler);
      var u := Respond(fs[1..], password, handler);
      assert t.replies == if e.proceed then e.replies + u.replies else e.replies;
      forall j | 0 <= j < |t.replies|
        ensures SentId(fs, t.replies[j].requestId)
      {
        if j < |e.replies| {
          assert fs[0].requestId == t.replies[j].requestId;
        } else {
          assert t.replies[j] == u.replies[j - |e.replies|];
          assert SentId(fs[1..], t.replies[j].requestId);
          var i :| 0 <= i < |fs[1..]| && fs[1..][i].requestId == t.replies[j].requestId;
          assert fs[i + 1].requestId == t.replies[j].requestId;
        }
      }
    }
  }
}

=== FILE: text.dfy ===
/** Java's `String.trim()`: strip every leading and trailing character whose
    code is at most U+0020 (space and all control characters). */
module Text {

  /** The characters `trim` removes. */
  predicate IsSpace(c: char) {
    c <= ' '
  }

  /** Drop the leading run of space characters. */
  function TrimStart(s: string): (r: string)
    ensures |r| <= |s| && r == s[|s| - |r|..]
    ensures forall k :: 0 <= k < |s| - |r| ==> IsSpace(s[k])
    ensures r == [] || !IsSpace(r[0])
  {
    if s == [] || !IsSpace(s[0]) then s else TrimStart(s[1..])
  }

  /** Drop the trailing run of space characters. */
  function TrimEnd(s: string): (r: string)
    ensures |r| <= |s| && r == s[..|r|]
    ensures forall k :: |r| <= k < |s| ==> IsSpace(s[k])
    ensures r == [] || !IsSpace(r[|r| - 1])
  {
    if s == [] || !IsSpace(s[|s| - 1]) then s else TrimEnd(s[..|s| - 1])
  }

  /** How many leading space characters `trim` removes. */
  function Lead(s: string): (n: nat)
    ensures n <= |s|
  {
    |s| - |TrimStart(s)|
  }

  /** Cutting a space-only prefix and then a space-only suffix leaves an
      infix with space-only surroundings. */
  lemma CutBothEnds(s: string, t: string, r: string)
    requires |t| <= |s| && t == s[|s| - |t|..]
    requires |r| <= |t| && r == t[..|r|]
    requires forall k :: |r| <= k < |t| ==> IsSpace(t[k])
    ensures r == s[|s| - |t|..|s| - |t| + |r|]
    ensures forall k :: |s| - |t| + |r| <= k < |s| ==> IsSpace(s[k])
  {
    var n := |s| - |t|;
    forall k | n + |r| <= k < |s|
      ensures IsSpace(s[k])
    {
      assert s[k] == t[k - n];
    }
  }

  /** `s.trim()`: the infix of `s` left once both space runs are gone; what
      was removed on either side is space characters only. */
  function Trim(s: string): (r: string)
    ensures Lead(s) + |r| <= |s| && r == s[Lead(s)..Lead(s) + |r|]
    ensures forall k :: 0 <= k < Lead(s) ==> IsSpace(s[k])
    ensures forall k :: Lead(s) + |r| <= k < |s| ==> IsSpace(s[k])
    ensures r == [] || (!IsSpace(r[0]) && !IsSpace(r[|r| - 1]))
  {
    var t := TrimStart(s);
    var r := TrimEnd(t);
    CutBothEnds(s, t, r);
    r
  }

  /** `s.trim().isEmpty()`. */
  predicate IsBlank(s: string) {
    Trim(s) == []
  }

  /** A string is blank exactly when every character in it is a space
      character. */
  lemma {:induction false} BlankIffAllSpace(s: string)
    ensures IsBlank(s) <==> forall k :: 0 <= k < |s| ==> IsSpace(s[k])
  {
    var t := TrimStart(s);
    if t != [] {
      var r := TrimEnd(t);
      assert !IsSpace(s[Lead(s)]);
    }
  }

  /** Trimming a trimmed string changes nothing. */
  lemma TrimIdempotent(s: string)
    ensures Trim(Trim(s)) == Trim(s)
  {
    var r := Trim(s);
    if r != [] {
      assert TrimStart(r) == r;
      assert TrimEnd(r) == r;
    }
  }
}

=== FILE: wire.dfy ===
/** The RCON frame as it travels on the socket: three 32-bit integers
    (length, request id, type), the body, and two zero terminator bytes. The
    length counts everything after itself, so it is ten more than the body.
    Integers are laid out most significant byte first, the order the server's
    `DataInputStream.readInt` reads. */
module Wire {
  import opened Bytes

  /** Type of a login request (`SERVER_DATA_AUTH`). */
  const AUTH: int32 := 3
  /** Type of a command request (`SERVER_DATA_EXECUTE_COMMAND`). */
  const EXECCOMMAND: int32 := 2
  /** Type of the server's answer to a login request. */
  const AUTH_RESPONSE: int32 := 2
  /** Type of the server's answer to a command. */
  const RESPONSE_VALUE: int32 := 0

  /** The string terminator and the packet terminator. */
  const Terminator: seq<byte> := [0, 0]

  /** The longest body whose length field still fits in a Java `int`. */
  const MaxPayload: int := MaxInt32 - 10

  /** One frame, as the sender means it. */
  datatype Frame = Frame(requestId: int32, kind: int32, payload: seq<byte>)

  /** The frame's length field can be written. */
  predicate Fits(f: Frame) {
    |f.payload| <= MaxPayload
  }

  /** Length, request id and type, twelve bytes. */
  function Header(f: Frame): (h: seq<byte>)
    requires Fits(f)
    ensures |h| == 12
  {
    EncodeInt32(10 + |f.payload|) + EncodeInt32(f.requestId) + EncodeInt32(f.kind)
  }

  /** Header and body, without the terminators. */
  function EncodeBare(f: Frame): (b: seq<byte>)
    requires Fits(f)
    ensures |b| == 12 + |f.payload|
  {
    Header(f) + f.payload
  }

  /** The complete frame. Its length field counts exactly the bytes that
      follow it, and it ends with both terminators. */
  function Encode(f: Frame): (b: seq<byte>)
    requires Fits(f)
    ensures |b| == 14 + |f.payload|
    ensures DecodeInt32(b) == |b| - 4
    ensures b[|b| - 2..] == Terminator
  {
    DecodeEncodeInt32(10 + |f.payload|, EncodeInt32(f.requestId) + EncodeInt32(f.kind) + f.payload + Terminator);
    assert EncodeBare(f) + Terminator == EncodeInt32(10 + |f.payload|) + (EncodeInt32(f.requestId) + EncodeInt32(f.kind) + f.payload + Terminator);
    EncodeBare(f) + Terminator
  }

  /** The body bytes of a list of frames, all together. */
  function PayloadBytes(fs: seq<Frame>): nat {
    if fs == [] then 0 else |fs[0].payload| + PayloadBytes(fs[1..])
  }

  /** Frames sent back to back: each takes its fourteen framing bytes plus
      its body. */
  function EncodeAll(fs: seq<Frame>): (b: seq<byte>)
    requires forall i :: 0 <= i < |fs| ==> Fits(fs[i])
    ensures |b| == 14 * |fs| + PayloadBytes(fs)
  {
    if fs == [] then [] else Encode(fs[0]) + EncodeAll(fs[1..])
  }

  /** Frames sent back to back with their terminators left off: twelve
      framing bytes each plus the body. */
  function EncodeAllBare(fs: seq<Frame>): (b: seq<byte>)
    requires forall i :: 0 <= i < |fs| ==> Fits(fs[i])
    ensures |b| == 12 * |fs| + PayloadBytes(fs)
  {
    if fs == [] then [] else EncodeBare(fs[0]) + EncodeAllBare(fs[1..])
  }
}
